=== FILE: README.md ===
# Crypto dashboard data layer, in Dafny

This project models the data-acquisition layer of a small crypto-price
dashboard, `src/lib/api.ts`. The layer does three things:

- **Price snapshot fetch** (`fetchSimplePrices`). It returns one ticker each
  for bitcoin, ethereum and dogecoin. It asks CoinGecko's simple-price
  endpoint first and falls back to CoinCap's asset list on any failure.
- **Bitcoin history fetch** (`fetchBtcLast6h`, `fetchBtcHistory`). It asks
  CoinGecko's hourly market chart and filters it to the requested window. On
  any failure it falls back to a CoinCap chain:
  1. history with an explicit range;
  2. history without a range, only if the first was not ok;
  3. m15 candles, only if history gave no points;
  4. h1 candles, only if the m15 request was not ok.
- **Offline synthetic generator** (`randomWalk`, `mockTickers`,
  `mockBtcLast6h`). With live requests disabled it produces random-walk prices
  from a process-wide last-price state.

The model is functional. A fetch is a pure function of:

- the configuration flags (`Config`);
- the synthetic state (`Option<map<CoinId, real>>`, standing for `mockLastPrices`);
- the random draws (each `Math.random()` becomes a `u` in [0, 1));
- the current time `now` (milliseconds);
- the requested `hours`;
- the network, as a sequence of responses (`Ok(body) | HttpFail(status) | NetErr`).
  The fetch consumes one response per request, in order.

A fetch returns its result (a value or an `Error`) together with the list of
endpoints it requested. The price fetch also returns the new synthetic state.
Labels are the millisecond timestamps they would be formatted from.

Modules, one per component:

- `Coins` (`coins.dfy`): coin ids, metadata, base prices, volatilities, tickers.
- `Network` (`network.dfy`): response bodies, the response oracle, endpoints,
  errors and configuration.
- `Normalise` (`normalise.dfy`): the series shape, the window filter, the
  `slice(-n)` trim and the point-count formula.
- `Synthetic` (`synthetic.dfy`): the random walk, the ticker refresh and the
  synthetic history.
- `Prices` (`prices.dfy`): the price fetch.
- `History` (`history.dfy`): the history fetches.

## Behaviour worth knowing

- **Empty CoinGecko chart.** The fallback in `src/lib/api.ts` is reached
  through a thrown exception, and its comments (lines 120 and 174) say it
  covers "any failure (auth, CORS, network)". A CoinGecko chart that answers
  ok with no prices throws nothing, so it is returned as an empty series, with
  no fallback. `History.EmptyChartDoesNotFallBack` states this.
- **Network errors on CoinCap.** Only the CoinGecko request sits inside the
  `try` whose `catch` falls back. A CoinCap request that never produces a
  response ends the call with an error. This includes the history chain,
  which retries only on a non-ok status.
- **CoinCap-only flag.** `fetchBtcHistory` ignores this flag and always asks
  CoinGecko first.
- **Error message.** When the CoinCap chain fails, the error carries the status
  of the last *history* answer, not the status of the failed candle requests.
- **Offline point count.** The offline history has `max(1, round(hours*60/15))`
  points. That is at least one point, even for zero hours.

## Model

| member | source | states |
|---|---|---|
| Coins.BasePrice | src/lib/api.ts:29-33 | the first offline refresh starts from 65000, 3500 and 0.12, all positive |
| Coins.Volatility | src/lib/api.ts:47 | every coin's ticker-walk volatility lies in (0, 1) |
| Coins.VolatilityOrder | src/lib/api.ts:47 | dogecoin's walk is the widest, ethereum's next and bitcoin's the narrowest |
| Coins.TickerFor | src/lib/api.ts:11-15 | a ticker carries its coin's id, name and symbol from the metadata table |
| Network.Drop | src/lib/api.ts:182-186 | after k requests, the next request is answered by the oracle's response at position k |
| Network.CgStatusFailure | src/lib/api.ts:107-110 | a non-ok CoinGecko status counts as an auth failure exactly when it is 401 or 403; any other status is a generic failure carrying that status |
| Normalise.FromPoints | src/lib/api.ts:249-250 | labels and prices have the same length as the points they come from |
| Normalise.PointsRoundTrip | src/lib/api.ts:249-250 | splitting points into labels and prices loses nothing: zipping them back gives the same points in the same order |
| Normalise.SeriesRoundTrip | src/lib/api.ts:249-250 | every aligned labels/prices pair comes from exactly one point sequence |
| Normalise.WindowFilter | src/lib/api.ts:247 | the filter keeps exactly the points with now - ts <= rangeMs; it keeps all of them when all qualify, and it is empty exactly when none qualifies |
| Normalise.WindowFilterIsSubsequence | src/lib/api.ts:247 | the filtered points are an order-preserving subsequence of the chart |
| Normalise.WindowFilterCounts | src/lib/api.ts:247 | the filter keeps each in-window point exactly as many times as it occurs in the chart and drops every other point |
| Normalise.SuffixIsSubsequence | src/lib/api.ts:289 | a trimmed tail keeps the order of the provider data |
| Normalise.SliceLast | src/lib/api.ts:289 | slice(-n) gives a suffix of length min(n, length) for n >= 1, and the whole array for n = 0 |
| Normalise.RoundHalfUp | src/lib/api.ts:222 | Math.round of a non-negative quotient is the nearest integer, with halves rounded up |
| Normalise.KeepPoints | src/lib/api.ts:278 | the kept point count is never below 1 |
| Normalise.DegradedCount | src/lib/api.ts:248 | the degraded CoinGecko slice keeps at least one raw point |
| Normalise.CountsForWholeHours | src/lib/api.ts:288 | for whole hours, keep = max(1, 4 * hours) and the degraded count is max(1, hours) |
| Synthetic.RandomWalk | src/lib/api.ts:37-41 | a walked price is never below the floor 0.0000001 |
| Synthetic.RandomWalkBounds | src/lib/api.ts:37-41 | from a positive price, with u in [0,1): the next price is positive, and abs(next/prev - 1) <= vol unless the floor clamped it; the floor cannot clamp when prev*(1 - vol) >= floor |
| Synthetic.Previous | src/lib/api.ts:44 | a refresh walks from the stored prices, or from the base prices when the state is unset; either way every coin has a positive price |
| Synthetic.WalkAll | src/lib/api.ts:45-49 | every coin takes one walk step with its own volatility and its own draw, and every coin still has a positive price afterwards |
| Synthetic.PercentChange | src/lib/api.ts:53 | the reported change is zero exactly when the price did not move, and positive exactly when it rose |
| Synthetic.MockTickers | src/lib/api.ts:43-64 | one refresh gives three tickers in coin order with table metadata; each price is one walk step from the previous price with that coin's volatility; the new state holds exactly the reported prices; each change is relative to the previous price |
| Synthetic.FirstRefreshSeedsFromBase | src/lib/api.ts:44 | the first refresh walks from 65000, 3500 and 0.12 |
| Synthetic.RefreshChangeReconstructsPrice | src/lib/api.ts:50-60 | applying the reported change percent to the previous price gives back the new price; the change is within 100 * volatility unless the floor clamped the price |
| Synthetic.StepChange | src/lib/api.ts:53 | for one walk step, the change percent reconstructs the new price and is bounded by the volatility |
| Synthetic.PercentChangeInverse | src/lib/api.ts:53 | the per-refresh change percent is the exact inverse of applying it to the previous price |
| Synthetic.RefreshStateIsReportedPrices | src/lib/api.ts:62 | after a refresh the state is valid, and the next refresh walks from the prices just reported |
| Synthetic.Timeline | src/lib/api.ts:228-229 | the synthetic labels are n timestamps, none later than now, the last one being now |
| Synthetic.TimelineSpacing | src/lib/api.ts:228-229 | consecutive synthetic labels are exactly one 15-minute step apart |
| Synthetic.WalkPrices | src/lib/api.ts:228-233 | the synthetic series has one price per draw, each at or above the floor |
| Synthetic.WalkPricesSteps | src/lib/api.ts:228-233 | the first synthetic price is one walk step from the start price, and each later one is one walk step from the price before it, each with its own draw |
| Synthetic.WalkPricesPrefixSteps | src/lib/api.ts:228-233 | the same walk-step relation holds for a series built from the first n draws, indexed into the full draw sequence |
| Synthetic.WalkPricesSnoc | src/lib/api.ts:228-233 | one more loop iteration adds exactly one walk step to the series |
| Synthetic.WalkPricesBounded | src/lib/api.ts:75 | from a positive start, successive synthetic prices differ by at most the volatility unless floored |
| Synthetic.MockHistory | src/lib/api.ts:221-235 | the offline history has exactly the requested number of points, with aligned labels ending at now; its first price is one walk step, with volatility 0.004, from 0.98 times the start price, and each later price is one such step from the price before it |
| Synthetic.StartPriceFollowsState | src/lib/api.ts:225 | under the state invariant the offline history starts from a positive price, and once the state is set it is the stored bitcoin price rather than the base price |
| Synthetic.MockBtcLast6h | src/lib/api.ts:66-80 | the offline six-hour series has exactly 24 aligned points |
| Synthetic.MockSeries | src/lib/api.ts:228-234 | the countdown loop builds exactly the offline history series |
| Synthetic.MockSeriesStep | src/lib/api.ts:228-233 | one loop iteration appends the timestamp i steps before now and one walk step from the last price |
| Prices.CoinGeckoPrices | src/lib/api.ts:105-118 | a CoinGecko answer succeeds exactly when it quotes all three coins; the tickers are in coin order and carry the quoted usd and 24h change; a failure is classified by status |
| Prices.LastIndexOf | src/lib/api.ts:125 | when a CoinCap id repeats, the record indexed by that id is the last one with it; absent only if no record has that id |
| Prices.AssetTicker | src/lib/api.ts:126-135 | a CoinCap ticker carries the coin's id, name and symbol |
| Prices.CoinCapPrices | src/lib/api.ts:121-135 | CoinCap succeeds exactly when it lists every coin, giving tickers in coin order with that coin's record values; a non-ok answer is the error CoinCap price failed with its status |
| Prices.FetchSimplePrices | src/lib/api.ts:82-137 | success is always three tickers in coin order. Offline: no request, the refreshed tickers, and the state advances. CoinCap-only: exactly one CoinCap request, whose reading is the result. Otherwise CoinGecko first: a CoinGecko success is the result, with no other request; after a CoinGecko failure exactly one CoinCap request, whose reading is the result. Every error comes from the last request, which was to CoinCap |
| Prices.AuthFailureFallsBackOnce | src/lib/api.ts:105-123 | a 401 or 403 from CoinGecko is an auth failure followed by exactly one CoinCap request; a complete CoinCap answer then gives tickers, not an error |
| Prices.CoinCapFailureSurfaces | src/lib/api.ts:87-90 | a non-ok CoinCap answer is always the error CoinCap price failed with its status, never an empty success |
| Prices.OfflineRefreshesChain | src/lib/api.ts:83 | two offline price fetches in a row: the second walks from the prices the first reported |
| History.CoinGeckoChart | src/lib/api.ts:238-251 | a chart answer gives the in-window points, or the last `degraded` raw points if none is in the window; the classification of its failures |
| History.CoinGeckoChartShape | src/lib/api.ts:245-248 | the CoinGecko series is always an order-preserving subsequence of the chart: the in-window points, or when there are none a suffix of length min(degraded, n); it is empty only if the chart is empty |
| History.DataOr | src/lib/api.ts:266-277 | a present `data` array is used as it is, even when empty; only a missing one reads as no points |
| History.HistoryStage | src/lib/api.ts:259-267 | the ranged request comes first; the unranged one follows exactly when the ranged answer was not ok. The answer read decides the outcome: no response is a network failure, a non-ok status is no points, an ok history body gives its data, and any other ok body is malformed |
| History.CandleStage | src/lib/api.ts:268-279 | m15 candles come first; h1 candles follow exactly when m15 was not ok. The answer read decides the outcome: no response is a network failure, a non-ok status is no points, an ok candle body gives its latest keep points, and any other ok body is malformed |
| History.CoinCapHistory | src/lib/api.ts:252-293 | at most four requests, the ranged one first; a retry exactly on a non-ok ranged answer; a successful series is aligned; non-empty history is used without candles, trimmed to keep; a failed history stage is the result; after empty history a failed candle stage is the result, and non-empty candles are the series |
| History.CoinCapSeriesProvenance | src/lib/api.ts:259-292 | every series of the chain is the latest keep points of one provider answer: the history answer read or the candle answer read |
| History.CoinCapChartErrorCause | src/lib/api.ts:268-286 | the chart error carries the status of the history answer read, and arises only once the candle answer read gave no points, after the last candle request |
| History.CoinCapErrorKinds | src/lib/api.ts:259-286 | every other error of the chain is a network failure on the last request or an unreadable ok body of the last answer |
| History.CoinCapRequests | src/lib/api.ts:259-274 | the chain's requests are the history requests followed by at most two more |
| History.RequestsAfterHistory | src/lib/api.ts:259-274 | more requests follow the history stage exactly when it produced no points without failing, and they are exactly the candle stage's requests; a failed history stage ends the chain |
| History.CandlesOnlyAfterEmptyHistory | src/lib/api.ts:259-270 | candle requests appear only after the history request that was read, and only when that answer was not ok or was an ok history without points, never after no response or an unreadable body |
| History.FailedHistoryEndsChain | src/lib/api.ts:259-267 | a history request that gets no response, or an ok answer whose body is not a history, ends the chain: no candle request, and the call fails with a network failure or a malformed body |
| History.H1OnlyAfterFailedM15 | src/lib/api.ts:270-274 | an h1 candle request comes only directly after an m15 candle request whose answer was not ok |
| History.EmptyHistoryOutcome | src/lib/api.ts:263-292 | a history stage with no points always goes on to an m15 candle request; when the candles give nothing too, a non-ok history answer is the chart error with that status and an ok but empty one is an empty series |
| History.EmptyHistoryIsNotAnError | src/lib/api.ts:286-292 | history that is ok but empty, with candles that give nothing, yields an empty series, not an error |
| History.AllFailuresReportRetryStatus | src/lib/api.ts:259-286 | when all four requests are non-ok, the call fails with the status of the unranged retry |
| History.HistoryChain | src/lib/api.ts:237-293 | CoinGecko is asked first; a CoinGecko success is the result after that one request; the CoinCap chain runs if and only if CoinGecko failed, and its window is [now - range, now] |
| History.HistoryChainBound | src/lib/api.ts:278-292 | a series from the CoinCap chain has at most keep points |
| History.HistoryChainErrors | src/lib/api.ts:237-293 | an error arises only after a CoinGecko failure |
| History.HistoryChainChartError | src/lib/api.ts:259-286 | a chart error carries the status of the CoinCap history answer the chain read |
| History.FetchBtcHistory | src/lib/api.ts:220-294 | offline: no request, and exactly the synthetic history of keep >= 1 aligned points ending at now. Online: CoinGecko first, and a CoinGecko success is the result after one request; the CoinCap range is [now - hours*3600000, now]; a CoinCap series never exceeds keep; an error arises only after a CoinGecko failure, is exactly the CoinCap chain's outcome, and a chart error carries the status of the history answer the chain read |
| History.CoinCapOnlyChart | src/lib/api.ts:144-156 | one ranged request with no retry and no candles; the whole answer is returned untrimmed; a non-ok answer is the error CoinCap chart failed with its status |
| History.FetchBtcLast6h | src/lib/api.ts:139-218 | offline: the 24-point synthetic series, no request and never an error. CoinCap-only: exactly the single-request CoinCap chart, and a non-ok answer is the chart error with its status. Otherwise a CoinGecko success is the result after one request; a CoinCap series has at most 24 points, and an error arises only after a CoinGecko failure, as the CoinCap chain's outcome, a chart error carrying the status of the history answer read |
| History.Last6hIsHistoryOfSixHours | src/lib/api.ts:139-218 | outside CoinCap-only mode, the six-hour fetch equals the history fetch for 6 hours, in every mode and for every network |
| History.CoinCapOnlyDoesNotTrim | src/lib/api.ts:144-156 | in CoinCap-only mode a long answer comes back whole, while the six-hour history trims it to 24 points |
| History.EmptyChartDoesNotFallBack | src/lib/api.ts:244-251 | a CoinGecko chart with no prices gives an empty series after one request, with no fallback |
| History.FallbackUsesRangedHistory | src/lib/api.ts:259-292 | after a failed CoinGecko chart, non-empty ranged history gives its latest min(keep, n) points from exactly two requests |
| History.OfflineHistoryFollowsRefresh | src/lib/api.ts:225 | the offline history starts from the bitcoin price the last refresh reported |

## Left out

- Transport and parsing: `fetch`, `res.json()` and `Number(...)` coercion are
  not modelled. Response bodies arrive already typed, with prices as `real`.
  A body of the wrong shape for its endpoint stands for one the client could
  not read. NaN from coercing a non-numeric string is not modelled.
- Exhausted oracle: past the end of the response sequence, every request
  behaves like a request that never completes (`NetErr`).
- Configuration: the environment-variable reads become the `Config` value. The
  `DEV` switch only picks the CoinGecko base URL, so it is left out. URLs
  become `Endpoint` values that carry only the parameters that vary (range and
  candle interval).
- `buildHeaders`: it only sets request headers, with no behaviour to prove.
- Time: `Date.now()` becomes one `now` parameter per call. The source reads the
  clock at slightly different moments within one call.
- Labels: `toLocaleTimeString` is a locale-dependent foreign call, so a label
  is its timestamp.
- Randomness: `Math.random()` becomes explicit draws. Prices are exact reals.
  IEEE rounding, overflow and NaN are not modelled.
- Hours: `hours` is a natural number. Fractional or negative windows, where
  `Math.round` would actually round, are not modelled. `RoundHalfUp` gives the
  rounding itself for non-negative rationals.
- Default volatility: `randomWalk`'s default of 0.01 is never used by a
  caller, so it is not modelled.
- Error text: errors are a datatype, not strings. `CoinCapPriceFailed(s)` and
  `CoinCapChartFailed(s)` stand for the messages "CoinCap price failed: s" and
  "CoinCap chart failed: s". `NetworkFailure` and `MalformedBody` stand for the
  exceptions a rejected fetch or an unreadable body raises.
- Mock state: `Synthetic.MockTickers` and the offline price fetch require the
  state to be unset or to hold a positive price for every coin. Only
  `mockTickers` writes the state, and it keeps this invariant (stated by
  `MockTickers`).
- UI and timing: `src/App.tsx` (React state, the 30-second timer, the
  `Promise.all` fan-out and overlapping load cycles) is not modelled.
- Rendering: `src/components/PriceCard.tsx` and
  `src/components/PriceChart.tsx` (number formatting and chart rendering) are
  not modelled.
- Build config: `vite.config.ts` and `vite.config.js` (dev-server proxy
  configuration) are not modelled.

=== FILE: coins.dfy ===
/** The fixed set of assets the dashboard tracks, their display metadata and
    the ticker record every price path hands to the caller. */
module Coins {

  datatype CoinId = Bitcoin | Ethereum | Dogecoin

  /** The order of the `ids` list of the price fetch, which is also the key
      order of the base-price table the offline generator walks. */
  const Ids: seq<CoinId> := [Bitcoin, Ethereum, Dogecoin]

  /** Where a coin sits in `Ids`: the inverse of indexing `Ids`. */
  function Position(id: CoinId): (k: nat)
    ensures k < |Ids| && Ids[k] == id
    ensures forall i :: 0 <= i < |Ids| && Ids[i] == id ==> i == k
  {
    match id
    case Bitcoin => 0
    case Ethereum => 1
    case Dogecoin => 2
  }

  /** The identifier both providers use for a coin. */
  function Key(id: CoinId): string
  {
    match id
    case Bitcoin => "bitcoin"
    case Ethereum => "ethereum"
    case Dogecoin => "dogecoin"
  }

  datatype Meta = Meta(name: string, symbol: string)

  /** The display-name and symbol table. */
  function MetaOf(id: CoinId): Meta
  {
    match id
    case Bitcoin => Meta("Bitcoin", "BTC")
    case Ethereum => Meta("Ethereum", "ETH")
    case Dogecoin => Meta("Dogecoin", "DOGE")
  }

  /** The price the offline generator starts from on its first use. */
  function BasePrice(id: CoinId): (p: real)
    ensures p > 0.0
  {
    match id
    case Bitcoin => 65000.0
    case Ethereum => 3500.0
    case Dogecoin => 0.12
  }

  /** The per-refresh volatility bound of the offline ticker walk: dogecoin
      moves most, bitcoin least. */
  function Volatility(id: CoinId): (v: real)
    ensures 0.0 < v < 1.0
  {
    match id
    case Dogecoin => 0.02
    case Ethereum => 0.012
    case Bitcoin => 0.008
  }

  /** Dogecoin's walk is the widest, ethereum's next and bitcoin's the narrowest. */
  lemma VolatilityOrder()
    ensures Volatility(Bitcoin) < Volatility(Ethereum) < Volatility(Dogecoin)
  {
  }

  datatype Ticker = Ticker(id: CoinId, name: string, symbol: string, priceUsd: real, change24hPercent: real)

  /** A ticker carries the identity and metadata of `id`. */
  predicate Describes(t: Ticker, id: CoinId)
  {
    t.id == id && t.name == MetaOf(id).name && t.symbol == MetaOf(id).symbol
  }

  /** One ticker per coin, in the order of `Ids`, with metadata from the table. */
  predicate InCoinOrder(ts: seq<Ticker>)
  {
    |ts| == |Ids| && forall i :: 0 <= i < |ts| ==> Describes(ts[i], Ids[i])
  }

  function TickerFor(id: CoinId, price: real, change: real): (t: Ticker)
    ensures Describes(t, id)
    ensures t.priceUsd == price && t.change24hPercent == change
  {
    Ticker(id, MetaOf(id).name, MetaOf(id).symbol, price, change)
  }
}

=== FILE: history.dfy ===
/** The bitcoin history fetches: the offline series, CoinGecko's hourly chart
    filtered to the window, and the CoinCap chain it falls back to (history
    with a range, then without, then m15 candles, then h1 candles). */
module History {
  import opened Network
  import opened Normalise
  import opened Synthetic

  const SixHoursMs: int := 6 * 60 * 60 * 1000
  /** Raw hourly points the six-hour fetch keeps when its window is empty. */
  const Last6hDegraded: nat := 6
  /** Points the six-hour fetch keeps from CoinCap. */
  const Last6hKeep: nat := 24

  // ---------------------------------------------------------------- CoinGecko

  /** Reads a CoinGecko market-chart answer: the points within `rangeMs` of
      `now`, or the last `degraded` raw points when none is. */
  function CoinGeckoChart(resp: Response, now: int, rangeMs: int, degraded: nat): (r: Result<Series, CgFailure>)
    ensures r.Success? <==> resp.Ok? && resp.body.MarketChart?
    ensures r.Success? ==> Aligned(r.value)
    ensures r.Success? ==> var window := WindowFilter(resp.body.prices, now, rangeMs);
      if |window| > 0 then r.value == FromPoints(window)
      else r.value == FromPoints(SliceLast(resp.body.prices, degraded))
    ensures resp.HttpFail? ==> r == Failure(CgStatusFailure(resp.status))
    ensures resp.NetErr? ==> r == Failure(CgNetwork)
  {
    match resp
    case NetErr => Failure(CgNetwork)
    case HttpFail(status) => Failure(CgStatusFailure(status))
    case Ok(body) =>
      if body.MarketChart? then
        var window := WindowFilter(body.prices, now, rangeMs);
        var slice := if |window| > 0 then window else SliceLast(body.prices, degraded);
        Success(FromPoints(slice))
      else Failure(CgMalformed)
  }

  /** The CoinGecko series is the in-window subsequence when there is one,
      otherwise the last `degraded` raw points; it is empty only when the
      chart itself is empty. */
  lemma CoinGeckoChartShape(prices: seq<Point>, now: int, rangeMs: int, degraded: nat)
    requires degraded >= 1
    ensures var s := CoinGeckoChart(Ok(MarketChart(prices)), now, rangeMs, degraded).value;
      var window := WindowFilter(prices, now, rangeMs);
      IsSubsequence(ToPoints(s), prices)
      && (|window| > 0 ==> ToPoints(s) == window)
      && (|window| == 0 ==> IsSuffix(ToPoints(s), prices) && |s.prices| == if |prices| < degraded then |prices| else degraded)
      && (|s.prices| == 0 <==> |prices| == 0)
  {
    var s := CoinGeckoChart(Ok(MarketChart(prices)), now, rangeMs, degraded).value;
    var window := WindowFilter(prices, now, rangeMs);
    if |window| > 0 {
      PointsRoundTrip(window);
      WindowFilterIsSubsequence(prices, now, rangeMs);
    } else {
      PointsRoundTrip(SliceLast(prices, degraded));
      SuffixIsSubsequence(SliceLast(prices, degraded), prices);
    }
  }

  // ---------------------------------------------------------------- CoinCap

  /** `json.data || []`: a missing `data` reads as no points, while a present
      array is used as it is, even when empty (an array is always truthy). */
  function DataOr(data: Option<seq<Point>>): (pts: seq<Point>)
    ensures data.Some? ==> pts == data.value
    ensures data.None? ==> pts == []
  {
    if data.Some? then data.value else []
  }

  /** The points a history answer yields; a non-ok answer yields none. */
  function HistoryPointsOf(resp: Response): seq<Point>
  {
    if resp.Ok? && resp.body.History? then DataOr(resp.body.data) else []
  }

  /** The points a candle answer yields; a non-ok answer yields none. */
  function CandlePointsOf(resp: Response): seq<Point>
  {
    if resp.Ok? && resp.body.Candles? then DataOr(resp.body.data) else []
  }

  /** Position of the history answer the chain reads: the ranged request, or
      the unranged retry when the ranged one was not ok. */
  function HistoryIndex(net: seq<Response>): nat
  {
    if Answer(net, 0).HttpFail? then 1 else 0
  }

  /** Position of the candle answer the chain reads: m15, or h1 when m15 was not ok. */
  function CandleIndex(net: seq<Response>): nat
  {
    var m15 := HistoryIndex(net) + 1;
    if Answer(net, m15).HttpFail? then m15 + 1 else m15
  }

  /** The candle stage: m15 candles, then h1 only when m15 was not ok; yields
      the latest `keep` candle points, or none when neither was ok. */
  function CandleStage(start: int, end: int, keep: nat, net: seq<Response>): (r: Run<seq<Point>>)
    ensures 1 <= |r.requests| <= 2 && r.requests[0] == CcCandles(M15, start, end)
    ensures |r.requests| == 2 <==> Answer(net, 0).HttpFail?
    ensures |r.requests| == 2 ==> r.requests[1] == CcCandles(H1, start, end)
    // the outcome of each kind of answer read
    ensures var a := Answer(net, |r.requests| - 1);
      && (a.NetErr? ==> r.result == Failure(NetworkFailure))
      && (a.HttpFail? ==> r.result == Success([]))
      && (a.Ok? && a.body.Candles? ==> r.result == Success(SliceLast(DataOr(a.body.data), keep)))
      && (a.Ok? && !a.body.Candles? ==> r.result == Failure(MalformedBody))
  {
    var m15 := CcCandles(M15, start, end);
    var first := Answer(net, 0);
    if first.NetErr? then Run(Failure(NetworkFailure), [m15])
    else
      var reqs := if first.HttpFail? then [m15, CcCandles(H1, start, end)] else [m15];
      var answer := Answer(net, |reqs| - 1);
      if answer.NetErr? then Run(Failure(NetworkFailure), reqs)
      else if answer.HttpFail? then Run(Success([]), reqs)
      else if !answer.body.Candles? then Run(Failure(MalformedBody), reqs)
      else Run(Success(SliceLast(DataOr(answer.body.data), keep)), reqs)
  }

  /** The history stage: the ranged request, then the unranged one only when
      the ranged one was not ok; yields the points of the answer it read. */
  function HistoryStage(start: int, end: int, net: seq<Response>): (r: Run<seq<Point>>)
    ensures 1 <= |r.requests| <= 2 && r.requests[0] == CcHistory(Some(Range(start, end)))
    ensures |r.requests| == 2 <==> Answer(net, 0).HttpFail?
    ensures |r.requests| == 2 ==> r.requests[1] == CcHistory(None)
    ensures |r.requests| == HistoryIndex(net) + 1
    // the outcome of each kind of answer read
    ensures var a := Answer(net, |r.requests| - 1);
      && (a.NetErr? ==> r.result == Failure(NetworkFailure))
      && (a.HttpFail? ==> r.result == Success([]))
      && (a.Ok? && a.body.History? ==> r.result == Success(DataOr(a.body.data)))
      && (a.Ok? && !a.body.History? ==> r.result == Failure(MalformedBody))
  {
    var ranged := CcHistory(Some(Range(start, end)));
    var first := Answer(net, 0);
    if first.NetErr? then Run(Failure(NetworkFailure), [ranged])
    else
      var reqs := if first.HttpFail? then [ranged, CcHistory(None)] else [ranged];
      var answer := Answer(net, |reqs| - 1);
      if answer.NetErr? then Run(Failure(NetworkFailure), reqs)
      else if answer.HttpFail? then Run(Success([]), reqs)
      else if !answer.body.History? then Run(Failure(MalformedBody), reqs)
      else Run(Success(DataOr(answer.body.data)), reqs)
  }

  /** The CoinCap history chain for the window [start, end], trimmed to the
      latest `keep` points. */
  function CoinCapHistory(start: int, end: int, keep: nat, net: seq<Response>): (r: Run<Series>)
    // request order: ranged history first, the unranged retry exactly when it was not ok
    ensures 1 <= |r.requests| <= 4 && r.requests[0] == CcHistory(Some(Range(start, end)))
    ensures (|r.requests| >= 2 && r.requests[1] == CcHistory(None)) <==> Answer(net, 0).HttpFail?
    ensures r.requests == CoinCapRequests(start, end, keep, net)
    ensures r.result.Success? ==> Aligned(r.result.value)
    ensures |HistoryPointsOf(Answer(net, HistoryIndex(net)))| > 0 ==>
      |r.requests| == HistoryIndex(net) + 1
      && r.result == Success(FromPoints(SliceLast(HistoryPointsOf(Answer(net, HistoryIndex(net))), keep)))
    // the outcome of each stage: a failed stage's error is the result, and
    // candles found after empty history are the series
    ensures HistoryStage(start, end, net).result.Failure? ==>
      r.result == Failure(HistoryStage(start, end, net).result.error)
    ensures var candles := CandleStage(start, end, keep, Drop(net, HistoryIndex(net) + 1));
      HistoryStage(start, end, net).result == Success([]) ==>
        (candles.result.Failure? ==> r.result == Failure(candles.result.error))
        && (candles.result.Success? && |candles.result.value| > 0 ==> r.result == Success(FromPoints(candles.result.value)))
  {
    var hist := HistoryStage(start, end, net);
    match hist.result
    case Failure(e) => Run(Failure(e), hist.requests)
    case Success(points) =>
      if |points| > 0 then Run(Success(FromPoints(SliceLast(points, keep))), hist.requests)
      else
        var candles := CandleStage(start, end, keep, Drop(net, |hist.requests|));
        var reqs := hist.requests + candles.requests;
        match candles.result
        case Failure(e) => Run(Failure(e), reqs)
        case Success(latest) =>
          var res := Answer(net, |hist.requests| - 1);
          if |latest| > 0 then Run(Success(FromPoints(latest)), reqs)
          else if res.HttpFail? then Run(Failure(CoinCapChartFailed(res.status)), reqs)
          else Run(Success(FromPoints(SliceLast(points, keep))), reqs)
  }

  /** Every series of the chain is the latest `keep` points of one provider
      answer: the history answer read, or the candle answer read. */
  lemma CoinCapSeriesProvenance(start: int, end: int, keep: nat, net: seq<Response>)
    ensures var r := CoinCapHistory(start, end, keep, net);
      r.result.Success? ==>
        r.result.value == FromPoints(SliceLast(HistoryPointsOf(Answer(net, HistoryIndex(net))), keep))
        || r.result.value == FromPoints(SliceLast(CandlePointsOf(Answer(net, CandleIndex(net))), keep))
  {
    var hist := HistoryStage(start, end, net);
    var k := HistoryIndex(net);
    var rest := Drop(net, k + 1);
    var candles := CandleStage(start, end, keep, rest);
    if hist.result == Success([]) {
      assert Answer(rest, |candles.requests| - 1) == Answer(net, k + |candles.requests|);
      assert CandleIndex(net) == k + |candles.requests|;
    }
  }

  /** The chart error carries the status of the history answer read, and
      arises only once the candles produced nothing. */
  lemma CoinCapChartErrorCause(start: int, end: int, keep: nat, net: seq<Response>)
    ensures var r := CoinCapHistory(start, end, keep, net);
      r.result.Failure? && r.result.error.CoinCapChartFailed? ==>
        Answer(net, HistoryIndex(net)) == HttpFail(r.result.error.status)
        && |SliceLast(CandlePointsOf(Answer(net, CandleIndex(net))), keep)| == 0
        && |r.requests| == CandleIndex(net) + 1
  {
    var hist := HistoryStage(start, end, net);
    var k := HistoryIndex(net);
    var rest := Drop(net, k + 1);
    var candles := CandleStage(start, end, keep, rest);
    if hist.result == Success([]) {
      assert Answer(rest, |candles.requests| - 1) == Answer(net, k + |candles.requests|);
      assert CandleIndex(net) == k + |candles.requests|;
      assert CoinCapRequests(start, end, keep, net) == hist.requests + candles.requests;
    }
  }

  /** Every other error is a network failure or an unreadable body of the
      last answer. */
  lemma CoinCapErrorKinds(start: int, end: int, keep: nat, net: seq<Response>)
    ensures var r := CoinCapHistory(start, end, keep, net);
      r.result.Failure? ==>
        (r.result.error == NetworkFailure && Answer(net, |r.requests| - 1).NetErr?)
        || (r.result.error == MalformedBody && Answer(net, |r.requests| - 1).Ok?)
        || r.result.error.CoinCapChartFailed?
  {
    var r := CoinCapHistory(start, end, keep, net);
    var hist := HistoryStage(start, end, net);
    var k := HistoryIndex(net);
    if hist.result.Failure? {
      assert r == Run(Failure(hist.result.error), hist.requests);
    } else if hist.result == Success([]) {
      var rest := Drop(net, k + 1);
      var candles := CandleStage(start, end, keep, rest);
      if candles.result.Failure? {
        assert r == Run(Failure(candles.result.error), hist.requests + candles.requests);
        assert Answer(rest, |candles.requests| - 1) == Answer(net, k + |candles.requests|);
      }
    }
  }

  /** Conversely to the error rule of `CoinCapHistory`: a history stage
      without points always goes on to m15 candles, and when the candles give
      nothing either, a non-ok history answer is the chart error while an ok
      but empty one is an empty series. */
  lemma EmptyHistoryOutcome(start: int, end: int, keep: nat, net: seq<Response>)
    ensures HistoryStage(start, end, net).result == Success([]) ==>
      var r := CoinCapHistory(start, end, keep, net);
      |r.requests| >= HistoryIndex(net) + 2 && r.requests[HistoryIndex(net) + 1] == CcCandles(M15, start, end)
    ensures (Answer(net, HistoryIndex(net)).HttpFail?
             && CandleStage(start, end, keep, Drop(net, HistoryIndex(net) + 1)).result == Success([])) ==>
      CoinCapHistory(start, end, keep, net).result == Failure(CoinCapChartFailed(Answer(net, HistoryIndex(net)).status))
    ensures (Answer(net, HistoryIndex(net)).Ok? && Answer(net, HistoryIndex(net)).body.History?
             && DataOr(Answer(net, HistoryIndex(net)).body.data) == []
             && CandleStage(start, end, keep, Drop(net, HistoryIndex(net) + 1)).result == Success([])) ==>
      CoinCapHistory(start, end, keep, net).result == Success(Series([], []))
  {
    var hist := HistoryStage(start, end, net);
    var k := HistoryIndex(net);
    var candles := CandleStage(start, end, keep, Drop(net, k + 1));
    if hist.result == Success([]) {
      var r := CoinCapHistory(start, end, keep, net);
      assert r.requests == hist.requests + candles.requests;
      assert r.requests[k + 1] == candles.requests[0];
    }
    if Answer(net, k).HttpFail? || (Answer(net, k).Ok? && Answer(net, k).body.History? && DataOr(Answer(net, k).body.data) == []) {
      assert hist.result == Success([]);
    }
  }

  /** The requests of the chain: the history stage's, followed by the candle
      stage's exactly when the history stage produced no points. */
  function CoinCapRequests(start: int, end: int, keep: nat, net: seq<Response>): (reqs: seq<Endpoint>)
    ensures var h := HistoryStage(start, end, net).requests;
      |h| <= |reqs| <= |h| + 2 && reqs[..|h|] == h
  {
    var hist := HistoryStage(start, end, net);
    if hist.result == Success([]) then
      hist.requests + CandleStage(start, end, keep, Drop(net, |hist.requests|)).requests
    else hist.requests
  }

  /** A failed history stage ends the chain; after one without points, the
      remaining requests are exactly the candle stage's. */
  lemma RequestsAfterHistory(start: int, end: int, keep: nat, net: seq<Response>)
    ensures var reqs := CoinCapRequests(start, end, keep, net);
      var hist := HistoryStage(start, end, net);
      (|reqs| > |hist.requests| <==> hist.result == Success([]))
      && (|reqs| > |hist.requests| ==>
            reqs[|hist.requests|..] == CandleStage(start, end, keep, Drop(net, |hist.requests|)).requests)
  {
    var hist := HistoryStage(start, end, net);
    if hist.result == Success([]) {
      var candles := CandleStage(start, end, keep, Drop(net, |hist.requests|));
      assert (hist.requests + candles.requests)[|hist.requests|..] == candles.requests;
    }
  }

  /** Candles are requested only once the history stage has produced no
      points without failing: the history answer read was not ok, or was an
      ok history body without points. No response or an unreadable body ends
      the chain. */
  lemma CandlesOnlyAfterEmptyHistory(start: int, end: int, keep: nat, net: seq<Response>)
    ensures var reqs := CoinCapRequests(start, end, keep, net);
      forall i :: 0 <= i < |reqs| && reqs[i].CcCandles? ==>
        i > HistoryIndex(net) && HistoryStage(start, end, net).result == Success([])
        && var a := Answer(net, HistoryIndex(net));
        (a.HttpFail? || (a.Ok? && a.body.History? && DataOr(a.body.data) == []))
  {
    var hist := HistoryStage(start, end, net);
    var reqs := CoinCapRequests(start, end, keep, net);
    var h := |hist.requests|;
    forall i | 0 <= i < h
      ensures reqs[i].CcHistory?
    {
      assert reqs[i] == reqs[..h][i];
    }
    if hist.result != Success([]) {
      assert reqs == hist.requests;
    }
  }

  /** A history request without a response, or with an ok body that is not
      a history, ends the chain: no candle request follows, and the call
      fails with that error. */
  lemma FailedHistoryEndsChain(start: int, end: int, keep: nat, net: seq<Response>)
    requires var a := Answer(net, HistoryIndex(net)); a.NetErr? || (a.Ok? && !a.body.History?)
    ensures var r := CoinCapHistory(start, end, keep, net);
      r.requests == HistoryStage(start, end, net).requests
      && |r.requests| == HistoryIndex(net) + 1
      && r.result == Failure(if Answer(net, HistoryIndex(net)).NetErr? then NetworkFailure else MalformedBody)
  {
    var hist := HistoryStage(start, end, net);
    assert hist.result.Failure?;
  }

  /** H1 candles are requested only right after m15 candles that were not ok. */
  lemma H1OnlyAfterFailedM15(start: int, end: int, keep: nat, net: seq<Response>)
    ensures var reqs := CoinCapRequests(start, end, keep, net);
      forall i :: 0 <= i < |reqs| && reqs[i] == CcCandles(H1, start, end) ==>
        i > 0 && reqs[i - 1] == CcCandles(M15, start, end) && Answer(net, i - 1).HttpFail?
  {
    var hist := HistoryStage(start, end, net);
    var reqs := CoinCapRequests(start, end, keep, net);
    var h := |hist.requests|;
    forall i | 0 <= i < h
      ensures reqs[i].CcHistory?
    {
      assert reqs[i] == reqs[..h][i];
    }
    if hist.result == Success([]) {
      var rest := Drop(net, h);
      var candles := CandleStage(start, end, keep, rest);
      assert reqs == hist.requests + candles.requests;
      assert Answer(rest, 0) == Answer(net, h);
      forall i | h <= i < |reqs| && reqs[i] == CcCandles(H1, start, end)
        ensures i == h + 1
      {
        assert reqs[i] == candles.requests[i - h];
      }
    } else {
      assert reqs == hist.requests;
    }
  }

  /** History that answers ok but empty, with candles that produce nothing,
      is an empty series and not an error. */
  lemma EmptyHistoryIsNotAnError(start: int, end: int, keep: nat, net: seq<Response>, m15: int, h1: int)
    requires Answer(net, 0).Ok? && Answer(net, 0).body.History? && DataOr(Answer(net, 0).body.data) == []
    requires Answer(net, 1) == HttpFail(m15) && Answer(net, 2) == HttpFail(h1)
    ensures CoinCapHistory(start, end, keep, net).result == Success(Series([], []))
    ensures CoinCapHistory(start, end, keep, net).requests
      == [CcHistory(Some(Range(start, end))), CcCandles(M15, start, end), CcCandles(H1, start, end)]
  {
    var hist := HistoryStage(start, end, net);
    assert hist == Run(Success([]), [CcHistory(Some(Range(start, end)))]);
    var rest := Drop(net, 1);
    assert Answer(rest, 0) == HttpFail(m15) && Answer(rest, 1) == HttpFail(h1);
    var candles := CandleStage(start, end, keep, rest);
    assert candles == Run(Success([]), [CcCandles(M15, start, end), CcCandles(H1, start, end)]);
    assert FromPoints(SliceLast([], keep)) == Series([], []);
    assert CoinCapRequests(start, end, keep, net) == hist.requests + candles.requests
      == [CcHistory(Some(Range(start, end))), CcCandles(M15, start, end), CcCandles(H1, start, end)];
  }

  /** When every request answers with a non-ok status the chain makes all
      four requests and fails with the status of the unranged retry. */
  lemma AllFailuresReportRetryStatus(start: int, end: int, keep: nat, net: seq<Response>, s0: int, s1: int, s2: int, s3: int)
    requires Answer(net, 0) == HttpFail(s0) && Answer(net, 1) == HttpFail(s1)
    requires Answer(net, 2) == HttpFail(s2) && Answer(net, 3) == HttpFail(s3)
    ensures CoinCapHistory(start, end, keep, net).result == Failure(CoinCapChartFailed(s1))
    ensures CoinCapHistory(start, end, keep, net).requests
      == [CcHistory(Some(Range(start, end))), CcHistory(None), CcCandles(M15, start, end), CcCandles(H1, start, end)]
  {
    var candles := CandleStage(start, end, keep, Drop(net, 2));
    assert candles.result == Success([]);
  }

  // ---------------------------------------------------------------- fetches

  /** CoinGecko first; on any failure the CoinCap chain over the window. */
  function HistoryChain(now: int, rangeMs: int, degraded: nat, keep: nat, net: seq<Response>): (r: Run<Series>)
    ensures |r.requests| >= 1 && r.requests[0] == CgMarketChart
    ensures r.requests == [CgMarketChart] <==> CoinGeckoChart(Answer(net, 0), now, rangeMs, degraded).Success?
    ensures CoinGeckoChart(Answer(net, 0), now, rangeMs, degraded).Success? ==>
      r == Run(Success(CoinGeckoChart(Answer(net, 0), now, rangeMs, degraded).value), [CgMarketChart])
    ensures CoinGeckoChart(Answer(net, 0), now, rangeMs, degraded).Failure? ==>
      r == Run(CoinCapHistory(now - rangeMs, now, keep, Drop(net, 1)).result,
               [CgMarketChart] + CoinCapHistory(now - rangeMs, now, keep, Drop(net, 1)).requests)
    ensures r.result.Success? ==> Aligned(r.result.value)
  {
    match CoinGeckoChart(Answer(net, 0), now, rangeMs, degraded)
    case Success(s) => Run(Success(s), [CgMarketChart])
    case Failure(_) =>
      var cc := CoinCapHistory(now - rangeMs, now, keep, Drop(net, 1));
      Run(cc.result, [CgMarketChart] + cc.requests)
  }

  /** A CoinCap series of the chain is at most `keep` points. */
  lemma HistoryChainBound(now: int, rangeMs: int, degraded: nat, keep: nat, net: seq<Response>)
    ensures var r := HistoryChain(now, rangeMs, degraded, keep, net);
      keep >= 1 && |r.requests| > 1 && r.result.Success? ==> |r.result.value.prices| <= keep
  {
    var r := HistoryChain(now, rangeMs, degraded, keep, net);
    if CoinGeckoChart(Answer(net, 0), now, rangeMs, degraded).Failure? {
      var rest := Drop(net, 1);
      var cc := CoinCapHistory(now - rangeMs, now, keep, rest);
      assert r.result == cc.result;
      CoinCapSeriesProvenance(now - rangeMs, now, keep, rest);
    } else {
      assert |r.requests| == 1;
    }
  }

  /** Errors of the chain come only from the CoinCap chain, after a
      CoinGecko failure. */
  lemma HistoryChainErrors(now: int, rangeMs: int, degraded: nat, keep: nat, net: seq<Response>)
    ensures var r := HistoryChain(now, rangeMs, degraded, keep, net);
      r.result.Failure? ==> CoinGeckoChart(Answer(net, 0), now, rangeMs, degraded).Failure?
  {
    var r := HistoryChain(now, rangeMs, degraded, keep, net);
    if CoinGeckoChart(Answer(net, 0), now, rangeMs, degraded).Success? {
      assert r.result.Success?;
    }
  }

  /** A chart error of the chain carries the status of the CoinCap history
      answer it read. */
  lemma HistoryChainChartError(now: int, rangeMs: int, degraded: nat, keep: nat, net: seq<Response>)
    ensures var r := HistoryChain(now, rangeMs, degraded, keep, net);
      r.result.Failure? && r.result.error.CoinCapChartFailed? ==>
        Answer(net, 1 + HistoryIndex(Drop(net, 1))) == HttpFail(r.result.error.status)
  {
    var r := HistoryChain(now, rangeMs, degraded, keep, net);
    if CoinGeckoChart(Answer(net, 0), now, rangeMs, degraded).Failure? {
      var rest := Drop(net, 1);
      var cc := CoinCapHistory(now - rangeMs, now, keep, rest);
      assert r.result == cc.result;
      CoinCapChartErrorCause(now - rangeMs, now, keep, rest);
      assert Answer(rest, HistoryIndex(rest)) == Answer(net, 1 + HistoryIndex(rest));
    } else {
      assert r.result.Success?;
    }
  }

  /** The bitcoin history for the last `hours` hours. The CoinCap-only flag
      plays no part here. */
  function FetchBtcHistory(cfg: Config, state: MockState, us: seq<real>, now: int, hours: nat, net: seq<Response>): (r: Run<Series>)
    requires !cfg.enableApi ==> |us| >= KeepPoints(hours)
    ensures r.result.Success? ==> Aligned(r.result.value)
    ensures !cfg.enableApi ==>
      (r.requests == [] && r.result.Success?
       && |r.result.value.prices| == KeepPoints(hours) >= 1
       && r.result.value.labels == Timeline(now, KeepPoints(hours)))
    ensures cfg.enableApi ==> |r.requests| >= 1 && r.requests[0] == CgMarketChart
    ensures cfg.enableApi && |r.requests| > 1 && r.result.Success? ==>
      |r.result.value.prices| <= KeepPoints(hours)
    ensures cfg.enableApi && |r.requests| > 1 ==>
      r.requests[1] == CcHistory(Some(Range(now - hours * HourMs, now)))
    ensures !cfg.enableApi ==> r.result == Success(MockHistory(state, now, KeepPoints(hours), us))
    ensures cfg.enableApi && CoinGeckoChart(Answer(net, 0), now, hours * HourMs, DegradedCount(hours)).Success? ==>
      r == Run(Success(CoinGeckoChart(Answer(net, 0), now, hours * HourMs, DegradedCount(hours)).value), [CgMarketChart])
    // errors come only from the CoinCap chain, which runs exactly when CoinGecko failed
    ensures r.result.Failure? ==>
      cfg.enableApi && CoinGeckoChart(Answer(net, 0), now, hours * HourMs, DegradedCount(hours)).Failure?
    ensures cfg.enableApi && CoinGeckoChart(Answer(net, 0), now, hours * HourMs, DegradedCount(hours)).Failure? ==>
      r.result == CoinCapHistory(now - hours * HourMs, now, KeepPoints(hours), Drop(net, 1)).result
    ensures r.result.Failure? && r.result.error.CoinCapChartFailed? ==>
      Answer(net, 1 + HistoryIndex(Drop(net, 1))) == HttpFail(r.result.error.status)
  {
    if !cfg.enableApi then
      Run(Success(MockHistory(state, now, KeepPoints(hours), us)), [])
    else
      HistoryChainBound(now, hours * HourMs, DegradedCount(hours), KeepPoints(hours), net);
      HistoryChainErrors(now, hours * HourMs, DegradedCount(hours), KeepPoints(hours), net);
      HistoryChainChartError(now, hours * HourMs, DegradedCount(hours), KeepPoints(hours), net);
      HistoryChain(now, hours * HourMs, DegradedCount(hours), KeepPoints(hours), net)
  }

  /** The CoinCap-only six-hour chart: one ranged request, no retry, no
      candles and no trim. */
  function CoinCapOnlyChart(now: int, net: seq<Response>): (r: Run<Series>)
    ensures r.requests == [CcHistory(Some(Range(now - SixHoursMs, now)))]
    ensures Answer(net, 0).HttpFail? ==> r.result == Failure(CoinCapChartFailed(Answer(net, 0).status))
    ensures Answer(net, 0).NetErr? ==> r.result == Failure(NetworkFailure)
    ensures r.result.Success? <==> Answer(net, 0).Ok? && Answer(net, 0).body.History? && Answer(net, 0).body.data.Some?
    ensures r.result.Success? ==> Aligned(r.result.value)
    ensures r.result.Success? ==> ToPoints(r.result.value) == Answer(net, 0).body.data.value
  {
    var req := CcHistory(Some(Range(now - SixHoursMs, now)));
    match Answer(net, 0)
    case NetErr => Run(Failure(NetworkFailure), [req])
    case HttpFail(status) => Run(Failure(CoinCapChartFailed(status)), [req])
    case Ok(body) =>
      if body.History? && body.data.Some? then
        PointsRoundTrip(body.data.value);
        Run(Success(FromPoints(body.data.value)), [req])
      else Run(Failure(MalformedBody), [req])
  }

  /** The six-hour bitcoin chart the dashboard shows. */
  function FetchBtcLast6h(cfg: Config, state: MockState, us: seq<real>, now: int, net: seq<Response>): (r: Run<Series>)
    requires !cfg.enableApi ==> |us| >= Last6hPoints
    ensures r.result.Success? ==> Aligned(r.result.value)
    ensures !cfg.enableApi ==> r.requests == [] && r.result.Success? && |r.result.value.prices| == 24
    ensures cfg.enableApi && cfg.coincapOnly ==> |r.requests| == 1
    ensures cfg.enableApi && !cfg.coincapOnly && |r.requests| > 1 && r.result.Success? ==>
      |r.result.value.prices| <= 24
    ensures !cfg.enableApi ==> r.result == Success(MockBtcLast6h(state, now, us))
    ensures cfg.enableApi && cfg.coincapOnly ==> r == CoinCapOnlyChart(now, net)
    ensures cfg.enableApi && !cfg.coincapOnly && CoinGeckoChart(Answer(net, 0), now, SixHoursMs, Last6hDegraded).Success? ==>
      r == Run(Success(CoinGeckoChart(Answer(net, 0), now, SixHoursMs, Last6hDegraded).value), [CgMarketChart])
    // errors: the one CoinCap answer in CoinCap-only mode, otherwise only the
    // CoinCap chain after a CoinGecko failure
    ensures r.result.Failure? ==> cfg.enableApi
    ensures cfg.enableApi && cfg.coincapOnly && Answer(net, 0).HttpFail? ==>
      r.result == Failure(CoinCapChartFailed(Answer(net, 0).status))
    ensures r.result.Failure? && !cfg.coincapOnly ==>
      CoinGeckoChart(Answer(net, 0), now, SixHoursMs, Last6hDegraded).Failure?
    ensures cfg.enableApi && !cfg.coincapOnly && CoinGeckoChart(Answer(net, 0), now, SixHoursMs, Last6hDegraded).Failure? ==>
      r.result == CoinCapHistory(now - SixHoursMs, now, Last6hKeep, Drop(net, 1)).result
    ensures r.result.Failure? && r.result.error.CoinCapChartFailed? && !cfg.coincapOnly ==>
      Answer(net, 1 + HistoryIndex(Drop(net, 1))) == HttpFail(r.result.error.status)
  {
    if !cfg.enableApi then
      Run(Success(MockBtcLast6h(state, now, us)), [])
    else if cfg.coincapOnly then
      CoinCapOnlyChart(now, net)
    else
      HistoryChainBound(now, SixHoursMs, Last6hDegraded, Last6hKeep, net);
      HistoryChainErrors(now, SixHoursMs, Last6hDegraded, Last6hKeep, net);
      HistoryChainChartError(now, SixHoursMs, Last6hDegraded, Last6hKeep, net);
      HistoryChain(now, SixHoursMs, Last6hDegraded, Last6hKeep, net)
  }

  /** Outside CoinCap-only mode the six-hour chart is the six-hour history:
      24 offline points are `KeepPoints(6)`, the degraded slice of 6 is
      `DegradedCount(6)` and the CoinCap trim of 24 is `KeepPoints(6)`. */
  lemma Last6hIsHistoryOfSixHours(cfg: Config, state: MockState, us: seq<real>, now: int, net: seq<Response>)
    requires !cfg.coincapOnly
    requires !cfg.enableApi ==> |us| >= Last6hPoints
    ensures FetchBtcLast6h(cfg, state, us, now, net) == FetchBtcHistory(cfg, state, us, now, 6, net)
  {
    CountsForWholeHours(6);
  }

  /** In CoinCap-only mode a long answer is returned whole, where the
      six-hour history would trim it to 24 points. */
  lemma CoinCapOnlyDoesNotTrim(state: MockState, us: seq<real>, now: int, data: seq<Point>)
    requires |data| > 24
    ensures var only := FetchBtcLast6h(Config(true, true), state, us, now, [Ok(History(Some(data)))]);
      only.result.Success? && |only.result.value.prices| == |data|
    ensures var chain := FetchBtcHistory(Config(true, true), state, us, now, 6, [NetErr, Ok(History(Some(data)))]);
      chain.result.Success? && |chain.result.value.prices| == 24
  {
    CountsForWholeHours(6);
    var net := [NetErr, Ok(History(Some(data)))];
    assert Answer(Drop(net, 1), 0) == Ok(History(Some(data)));
  }

  /** A CoinGecko chart that answers ok with no prices is returned as an
      empty series: the chain does not fall back on an empty result. */
  lemma EmptyChartDoesNotFallBack(cfg: Config, state: MockState, us: seq<real>, now: int, hours: nat, net: seq<Response>)
    requires cfg.enableApi && Answer(net, 0) == Ok(MarketChart([]))
    ensures FetchBtcHistory(cfg, state, us, now, hours, net) == Run(Success(Series([], [])), [CgMarketChart])
  {
  }

  /** A failed CoinGecko chart followed by non-empty ranged history gives the
      latest `KeepPoints(hours)` history points from two requests. */
  lemma FallbackUsesRangedHistory(cfg: Config, state: MockState, us: seq<real>, now: int, hours: nat, net: seq<Response>, data: seq<Point>)
    requires cfg.enableApi && !Answer(net, 0).Ok?
    requires Answer(net, 1) == Ok(History(Some(data))) && |data| > 0
    ensures var r := FetchBtcHistory(cfg, state, us, now, hours, net);
      r.requests == [CgMarketChart, CcHistory(Some(Range(now - hours * HourMs, now)))]
      && r.result.Success?
      && IsSuffix(ToPoints(r.result.value), data)
      && |r.result.value.prices| == if |data| < KeepPoints(hours) then |data| else KeepPoints(hours)
  {
    var rest := Drop(net, 1);
    assert Answer(rest, 0) == Ok(History(Some(data)));
    PointsRoundTrip(SliceLast(data, KeepPoints(hours)));
  }

  /** The offline history starts from the bitcoin price the last offline
      refresh reported. */
  lemma OfflineHistoryFollowsRefresh(state: MockState, us: seq<real>)
    requires ValidState(state) && |us| >= |Coins.Ids|
    ensures StartPrice(MockTickers(state, us).state) == MockTickers(state, us).tickers[0].priceUsd
  {
  }
}

=== FILE: network.dfy ===
/** The network as the data layer sees it: the endpoints it requests, the
    already-parsed bodies they answer with, and an oracle that answers the
    requests of one call in order. */
module Network {

  datatype Option<+T> = None | Some(value: T)

  datatype Result<+T, +E> = Success(value: T) | Failure(error: E)

  /** A (timestamp in milliseconds, price) pair. Chart pairs, history records
      (`time`, `priceUsd`) and candles (`period`, `close`) all become points. */
  datatype Point = Point(ts: int, price: real)

  datatype Quote = Quote(usd: real, usd24hChange: real)

  datatype AssetRecord = AssetRecord(id: string, priceUsd: real, changePercent24Hr: real)

  /** A parsed response body, one shape per endpoint. A body of a shape other
      than the one its endpoint returns stands for a body the client could not
      read. `None` in `History`/`Candles` is a JSON object without `data`. */
  datatype Body =
    | SimplePrices(quotes: map<string, Quote>)
    | Assets(assets: seq<AssetRecord>)
    | MarketChart(prices: seq<Point>)
    | History(data: Option<seq<Point>>)
    | Candles(data: Option<seq<Point>>)

  /** `Ok` is a response whose `ok` flag is set; `HttpFail` one whose flag is
      clear; `NetErr` a request that never produced a response. */
  datatype Response = Ok(body: Body) | HttpFail(status: int) | NetErr

  datatype Interval = M15 | H1

  datatype Range = Range(start: int, end: int)

  datatype Endpoint =
    | CgSimplePrice
    | CgMarketChart
    | CcAssets
    | CcHistory(range: Option<Range>)
    | CcCandles(interval: Interval, start: int, end: int)

  /** The errors a fetch surfaces to its caller. */
  datatype Error =
    | CoinCapPriceFailed(status: int)
    | CoinCapChartFailed(status: int)
    | NetworkFailure
    | MalformedBody

  /** Why a CoinGecko attempt failed; every kind leads to the same fallback. */
  datatype CgFailure = CgAuth | CgHttp(status: int) | CgNetwork | CgMalformed

  /** The configuration flags, resolved once: whether live requests are made
      at all, and whether the price and six-hour fetches go to CoinCap only. */
  datatype Config = Config(enableApi: bool, coincapOnly: bool)

  /** The outcome of one fetch together with the endpoints it requested, in order. */
  datatype Run<+T> = Run(result: Result<T, Error>, requests: seq<Endpoint>)

  /** The answer to the request at position `i`; an exhausted oracle behaves
      like a request that never completes. */
  function Answer(net: seq<Response>, i: nat): Response
  {
    if i < |net| then net[i] else NetErr
  }

  /** The oracle left after `k` requests have been answered. */
  function Drop(net: seq<Response>, k: nat): (rest: seq<Response>)
    ensures forall i: nat :: Answer(rest, i) == Answer(net, k + i)
  {
    if k <= |net| then net[k..] else []
  }

  /** How a non-ok CoinGecko status is classified: 401 and 403 are the
      distinguished authentication failure, every other status is generic. */
  function CgStatusFailure(status: int): (f: CgFailure)
    ensures f.CgAuth? <==> (status == 401 || status == 403)
    ensures !f.CgAuth? ==> f == CgHttp(status)
  {
    if status == 401 || status == 403 then CgAuth else CgHttp(status)
  }
}

=== FILE: normalise.dfy ===
/** The pure sequence work every history path shares: turning points into the
    parallel label/price sequences the chart consumes, the time-window filter,
    the `slice(-n)` suffix trim and the point-count formula. A label is the
    timestamp it is formatted from. */
module Normalise {
  import opened Network

  datatype Series = Series(labels: seq<int>, prices: seq<real>)

  const HourMs: int := 60 * 60 * 1000
  const StepMs: int := 15 * 60 * 1000

  predicate Aligned(s: Series)
  {
    |s.labels| == |s.prices|
  }

  /** Splits points into labels and prices, preserving order. */
  function FromPoints(pts: seq<Point>): (s: Series)
    ensures Aligned(s) && |s.labels| == |pts|
  {
    Series(seq(|pts|, i requires 0 <= i < |pts| => pts[i].ts),
           seq(|pts|, i requires 0 <= i < |pts| => pts[i].price))
  }

  /** Zips an aligned series back into points. */
  function ToPoints(s: Series): (pts: seq<Point>)
    requires Aligned(s)
    ensures |pts| == |s.labels|
  {
    seq(|s.labels|, i requires 0 <= i < |s.labels| => Point(s.labels[i], s.prices[i]))
  }

  lemma PointsRoundTrip(pts: seq<Point>)
    ensures ToPoints(FromPoints(pts)) == pts
  {
    var back := ToPoints(FromPoints(pts));
    assert forall i :: 0 <= i < |pts| ==> back[i] == pts[i];
  }

  lemma SeriesRoundTrip(s: Series)
    requires Aligned(s)
    ensures FromPoints(ToPoints(s)) == s
  {
    var back := FromPoints(ToPoints(s));
    assert back.labels == s.labels;
    assert back.prices == s.prices;
  }

  // ---------------------------------------------------------------- order

  /** `a` is obtained from `b` by deleting elements, keeping the order. */
  predicate IsSubsequence<T(==)>(a: seq<T>, b: seq<T>)
    decreases |b|
  {
    if |a| == 0 then true
    else if |b| == 0 then false
    else (a[0] == b[0] && IsSubsequence(a[1..], b[1..])) || IsSubsequence(a, b[1..])
  }

  predicate IsSuffix<T(==)>(a: seq<T>, b: seq<T>)
  {
    |a| <= |b| && a == b[|b| - |a|..]
  }

  lemma {:induction false} SuffixIsSubsequence<T>(a: seq<T>, b: seq<T>)
    requires IsSuffix(a, b)
    ensures IsSubsequence(a, b)
    decreases |b|
  {
    if |a| == 0 {
    } else if |a| == |b| {
      assert a == b;
      SelfSubsequence(a);
    } else {
      assert IsSuffix(a, b[1..]);
      SuffixIsSubsequence(a, b[1..]);
    }
  }

  lemma {:induction false} SelfSubsequence<T>(a: seq<T>)
    ensures IsSubsequence(a, a)
    decreases |a|
  {
    if |a| > 0 {
      SelfSubsequence(a[1..]);
    }
  }

  // ---------------------------------------------------------------- window

  /** The predicate of the client-side filter: a point is kept when it is at
      most `rangeMs` milliseconds older than `now` (points in the future pass). */
  predicate InWindow(p: Point, now: int, rangeMs: int)
  {
    now - p.ts <= rangeMs
  }

  /** The points within the window, in their original order. */
  function WindowFilter(pts: seq<Point>, now: int, rangeMs: int): (r: seq<Point>)
    ensures |r| <= |pts|
    ensures forall i :: 0 <= i < |r| ==> InWindow(r[i], now, rangeMs) && r[i] in pts
    ensures forall i :: 0 <= i < |pts| && InWindow(pts[i], now, rangeMs) ==> pts[i] in r
    ensures (forall i :: 0 <= i < |pts| ==> InWindow(pts[i], now, rangeMs)) ==> r == pts
    ensures |r| == 0 <==> forall i :: 0 <= i < |pts| ==> !InWindow(pts[i], now, rangeMs)
    decreases |pts|
  {
    if |pts| == 0 then []
    else
      var rest := WindowFilter(pts[1..], now, rangeMs);
      assert forall i :: 1 <= i < |pts| ==> pts[i] == pts[1..][i - 1];
      if InWindow(pts[0], now, rangeMs) then [pts[0]] + rest else rest
  }

  /** The filter keeps every in-window point as often as it occurs and drops
      every other one. */
  lemma {:induction false} WindowFilterCounts(pts: seq<Point>, now: int, rangeMs: int)
    ensures var r := WindowFilter(pts, now, rangeMs);
      forall x :: multiset(r)[x] == if InWindow(x, now, rangeMs) then multiset(pts)[x] else 0
    decreases |pts|
  {
    if |pts| > 0 {
      var r := WindowFilter(pts, now, rangeMs);
      var rest := WindowFilter(pts[1..], now, rangeMs);
      WindowFilterCounts(pts[1..], now, rangeMs);
      assert pts == [pts[0]] + pts[1..];
      assert multiset(pts) == multiset{pts[0]} + multiset(pts[1..]);
      if InWindow(pts[0], now, rangeMs) {
        assert r == [pts[0]] + rest;
        assert multiset(r) == multiset{pts[0]} + multiset(rest);
      } else {
        assert r == rest;
      }
    }
  }

  lemma {:induction false} WindowFilterIsSubsequence(pts: seq<Point>, now: int, rangeMs: int)
    ensures IsSubsequence(WindowFilter(pts, now, rangeMs), pts)
    decreases |pts|
  {
    if |pts| > 0 {
      var r := WindowFilter(pts, now, rangeMs);
      var rest := WindowFilter(pts[1..], now, rangeMs);
      WindowFilterIsSubsequence(pts[1..], now, rangeMs);
      if InWindow(pts[0], now, rangeMs) {
        assert r == [pts[0]] + rest;
        assert r[1..] == rest;
      } else {
        assert r == rest;
      }
    }
  }

  // ---------------------------------------------------------------- trim

  /** `slice(-n)` on an array: the last `n` elements, the whole array when it
      is shorter, and (as `-0` is `0`) the whole array when `n` is zero. */
  function SliceLast<T>(s: seq<T>, n: nat): (r: seq<T>)
    ensures IsSuffix(r, s)
    ensures n > 0 ==> |r| == (if n < |s| then n else |s|)
    ensures n == 0 ==> r == s
  {
    if n == 0 || n >= |s| then s else s[|s| - n..]
  }

  // ---------------------------------------------------------------- counts

  function Max(a: int, b: int): int
  {
    if a < b then b else a
  }

  /** `Math.round(num / den)` for a non-negative rational: the nearest integer,
      halves rounded up. */
  function RoundHalfUp(num: nat, den: nat): (r: nat)
    requires den > 0
    ensures 2 * r * den <= 2 * num + den < 2 * r * den + 2 * den
  {
    var q := (2 * num + den) / (2 * den);
    var m := (2 * num + den) % (2 * den);
    assert 2 * num + den == 2 * den * q + m;
    assert 2 * q * den == 2 * den * q;
    q
  }

  /** The number of 15-minute points a window of `hours` hours holds, at least one. */
  function KeepPoints(hours: nat): (k: nat)
    ensures k >= 1
  {
    Max(1, RoundHalfUp(hours * 60, 15))
  }

  /** The number of raw hourly points the degraded CoinGecko path keeps. */
  function DegradedCount(hours: nat): (k: nat)
    ensures k >= 1
  {
    Max(1, RoundHalfUp(hours, 1))
  }

  /** With whole hours the rounding is exact: four points per hour, and the
      degraded path keeps one raw point per hour. */
  lemma CountsForWholeHours(hours: nat)
    ensures KeepPoints(hours) == Max(1, 4 * hours)
    ensures DegradedCount(hours) == Max(1, hours)
  {
    var r := RoundHalfUp(hours * 60, 15);
    assert 30 * r <= 120 * hours + 15 < 30 * r + 30;
    var d := RoundHalfUp(hours, 1);
    assert 2 * d <= 2 * hours + 1 < 2 * d + 2;
  }
}

=== FILE: prices.dfy ===
/** The price snapshot fetch: the offline refresh, CoinGecko's simple-price
    endpoint, and the CoinCap asset list it falls back to. */
module Prices {
  import opened Coins
  import opened Network
  import opened Synthetic

  datatype PriceRun = PriceRun(result: Result<seq<Ticker>, Error>, requests: seq<Endpoint>, state: MockState)

  /** Every coin has a quote under its provider key. */
  predicate QuotesAll(quotes: map<string, Quote>)
  {
    forall id: CoinId :: Key(id) in quotes
  }

  /** Reads a CoinGecko simple-price answer. Every way it can fail is
      classified; the caller falls back on all of them alike. */
  function CoinGeckoPrices(resp: Response): (r: Result<seq<Ticker>, CgFailure>)
    ensures r.Success? <==> resp.Ok? && resp.body.SimplePrices? && QuotesAll(resp.body.quotes)
    ensures r.Success? ==> InCoinOrder(r.value)
    ensures r.Success? ==> forall i :: 0 <= i < |Ids| ==>
      r.value[i].priceUsd == resp.body.quotes[Key(Ids[i])].usd
      && r.value[i].change24hPercent == resp.body.quotes[Key(Ids[i])].usd24hChange
    ensures resp.HttpFail? ==> r == Failure(CgStatusFailure(resp.status))
    ensures resp.NetErr? ==> r == Failure(CgNetwork)
    ensures resp.Ok? && r.Failure? ==> r.error == CgMalformed
  {
    match resp
    case NetErr => Failure(CgNetwork)
    case HttpFail(status) => Failure(CgStatusFailure(status))
    case Ok(body) =>
      if body.SimplePrices? && QuotesAll(body.quotes) then
        Success(seq(|Ids|, i requires 0 <= i < |Ids| =>
          TickerFor(Ids[i], body.quotes[Key(Ids[i])].usd, body.quotes[Key(Ids[i])].usd24hChange)))
      else Failure(CgMalformed)
  }

  /** Where the record for `key` sits once the asset list is indexed by id:
      when an id repeats, the last record wins. */
  function LastIndexOf(assets: seq<AssetRecord>, key: string): (r: Option<nat>)
    ensures r.Some? ==> r.value < |assets| && assets[r.value].id == key
    ensures r.Some? ==> forall k :: r.value < k < |assets| ==> assets[k].id != key
    ensures r.None? <==> forall k :: 0 <= k < |assets| ==> assets[k].id != key
    decreases |assets|
  {
    if |assets| == 0 then None
    else if assets[|assets| - 1].id == key then Some(|assets| - 1)
    else LastIndexOf(assets[..|assets| - 1], key)
  }

  /** Every coin has a record in the asset list. */
  predicate ListsAll(assets: seq<AssetRecord>)
  {
    forall id: CoinId :: LastIndexOf(assets, Key(id)).Some?
  }

  function AssetTicker(id: CoinId, assets: seq<AssetRecord>): (t: Ticker)
    requires LastIndexOf(assets, Key(id)).Some?
    ensures Describes(t, id)
  {
    var a := assets[LastIndexOf(assets, Key(id)).value];
    TickerFor(id, a.priceUsd, a.changePercent24Hr)
  }

  /** Reads a CoinCap asset-list answer. A non-ok status is surfaced with
      that status; a missing record or an unreadable body is malformed. */
  function CoinCapPrices(resp: Response): (r: Result<seq<Ticker>, Error>)
    ensures r.Success? <==> resp.Ok? && resp.body.Assets? && ListsAll(resp.body.assets)
    ensures r.Success? ==> InCoinOrder(r.value)
    ensures r.Success? ==> forall i :: 0 <= i < |Ids| ==>
      var k := LastIndexOf(resp.body.assets, Key(Ids[i]));
      k.Some? && r.value[i].priceUsd == resp.body.assets[k.value].priceUsd
      && r.value[i].change24hPercent == resp.body.assets[k.value].changePercent24Hr
    ensures resp.HttpFail? ==> r == Failure(CoinCapPriceFailed(resp.status))
    ensures resp.NetErr? ==> r == Failure(NetworkFailure)
    ensures resp.Ok? && r.Failure? ==> r.error == MalformedBody
  {
    match resp
    case NetErr => Failure(NetworkFailure)
    case HttpFail(status) => Failure(CoinCapPriceFailed(status))
    case Ok(body) =>
      if body.Assets? && ListsAll(body.assets) then
        Success(seq(|Ids|, i requires 0 <= i < |Ids| => AssetTicker(Ids[i], body.assets)))
      else Failure(MalformedBody)
  }

  /** The price fetch. Offline it refreshes the synthetic state and makes no
      request; in CoinCap-only mode it makes the one CoinCap request;
      otherwise it asks CoinGecko and, on any failure, CoinCap once. */
  function FetchSimplePrices(cfg: Config, state: MockState, us: seq<real>, net: seq<Response>): (r: PriceRun)
    requires !cfg.enableApi ==> ValidState(state) && |us| >= |Ids|
    ensures r.result.Success? ==> InCoinOrder(r.result.value)
    ensures !cfg.enableApi ==> r.requests == [] && r.result.Success?
    ensures !cfg.enableApi ==> r.result.value == MockTickers(state, us).tickers && r.state == MockTickers(state, us).state
    ensures cfg.enableApi ==> r.state == state
    ensures cfg.enableApi && cfg.coincapOnly ==> r.requests == [CcAssets] && r.result == CoinCapPrices(Answer(net, 0))
    ensures cfg.enableApi && !cfg.coincapOnly ==> |r.requests| >= 1 && r.requests[0] == CgSimplePrice
    ensures cfg.enableApi && !cfg.coincapOnly ==>
      (r.requests == [CgSimplePrice] <==> CoinGeckoPrices(Answer(net, 0)).Success?)
    ensures cfg.enableApi && !cfg.coincapOnly && CoinGeckoPrices(Answer(net, 0)).Success? ==>
      r.result == Success(CoinGeckoPrices(Answer(net, 0)).value)
    ensures cfg.enableApi && !cfg.coincapOnly && CoinGeckoPrices(Answer(net, 0)).Failure? ==>
      r.requests == [CgSimplePrice, CcAssets] && r.result == CoinCapPrices(Answer(net, 1))
    ensures r.result.Failure? ==> |r.requests| > 0 && r.requests[|r.requests| - 1] == CcAssets
  {
    if !cfg.enableApi then
      var refresh := MockTickers(state, us);
      PriceRun(Success(refresh.tickers), [], refresh.state)
    else if cfg.coincapOnly then
      PriceRun(CoinCapPrices(Answer(net, 0)), [CcAssets], state)
    else
      match CoinGeckoPrices(Answer(net, 0))
      case Success(tickers) => PriceRun(Success(tickers), [CgSimplePrice], state)
      case Failure(_) => PriceRun(CoinCapPrices(Answer(net, 1)), [CgSimplePrice, CcAssets], state)
  }

  /** A CoinGecko authentication failure (401 or 403) leads to exactly one
      CoinCap request, and a complete CoinCap answer gives the three tickers
      without an error. */
  lemma AuthFailureFallsBackOnce(cfg: Config, state: MockState, us: seq<real>, net: seq<Response>)
    requires cfg.enableApi && !cfg.coincapOnly
    requires Answer(net, 0).HttpFail? && (Answer(net, 0).status == 401 || Answer(net, 0).status == 403)
    ensures CoinGeckoPrices(Answer(net, 0)) == Failure(CgAuth)
    ensures FetchSimplePrices(cfg, state, us, net).requests == [CgSimplePrice, CcAssets]
    ensures Answer(net, 1).Ok? && Answer(net, 1).body.Assets? && ListsAll(Answer(net, 1).body.assets) ==>
      FetchSimplePrices(cfg, state, us, net).result.Success?
  {
  }

  /** A non-ok CoinCap answer is surfaced as `CoinCap price failed` with its
      status, never as an empty success, in either online mode. */
  lemma CoinCapFailureSurfaces(cfg: Config, state: MockState, us: seq<real>, net: seq<Response>, status: int)
    requires cfg.enableApi
    requires cfg.coincapOnly ==> Answer(net, 0) == HttpFail(status)
    requires !cfg.coincapOnly ==> CoinGeckoPrices(Answer(net, 0)).Failure? && Answer(net, 1) == HttpFail(status)
    ensures FetchSimplePrices(cfg, state, us, net).result == Failure(CoinCapPriceFailed(status))
  {
  }

  /** An offline refresh followed by another walks the second from the
      prices the first reported. */
  lemma OfflineRefreshesChain(cfg: Config, state: MockState, us1: seq<real>, us2: seq<real>, net: seq<Response>)
    requires !cfg.enableApi && ValidState(state) && |us1| >= |Ids| && |us2| >= |Ids|
    ensures var first := FetchSimplePrices(cfg, state, us1, net);
      ValidState(first.state)
      && var second := FetchSimplePrices(cfg, first.state, us2, net);
      forall i :: 0 <= i < |Ids| ==>
        second.result.value[i].priceUsd
          == RandomWalk(first.result.value[i].priceUsd, Volatility(Ids[i]), us2[i])
  {
    var first := FetchSimplePrices(cfg, state, us1, net);
    RefreshStateIsReportedPrices(state, us1);
  }
}

=== FILE: synthetic.dfy ===
/** The offline generator: a multiplicative random walk, the ticker refresh
    that advances the process-wide last-price state, and the synthetic
    history series. Each `Math.random()` draw is an explicit `u` in [0, 1). */
module Synthetic {
  import opened Coins
  import opened Network
  import opened Normalise

  /** The strictly positive floor every walked price is clamped to. */
  const Floor: real := 0.0000001
  const HistoryVolatility: real := 0.004
  /** The synthetic history starts slightly below the last known price. */
  const Discount: real := 0.98
  /** The fixed size of the six-hour offline series: 15-minute steps over 6 hours. */
  const Last6hPoints: nat := 24

  function AbsReal(x: real): real
  {
    if x < 0.0 then -x else x
  }

  predicate IsDraw(u: real)
  {
    0.0 <= u < 1.0
  }

  predicate UnitDraws(us: seq<real>)
  {
    forall i :: 0 <= i < |us| ==> IsDraw(us[i])
  }

  /** One step of the walk: a relative change of `(2u - 1) * vol`, clamped
      below at `Floor`. */
  function RandomWalk(prev: real, vol: real, u: real): (r: real)
    ensures r >= Floor
  {
    var change := (u * 2.0 - 1.0) * vol;
    var next := prev * (1.0 + change);
    if next >= Floor then next else Floor
  }

  /** From a positive price, a step moves by at most `vol` relative to it
      unless the floor clamps it, and the floor cannot clamp a step whose
      worst case stays above it. */
  lemma RandomWalkBounds(prev: real, vol: real, u: real)
    requires prev > 0.0 && vol >= 0.0 && IsDraw(u)
    ensures RandomWalk(prev, vol, u) > 0.0
    ensures RandomWalk(prev, vol, u) == Floor || AbsReal(RandomWalk(prev, vol, u) / prev - 1.0) <= vol
    ensures prev * (1.0 - vol) >= Floor ==> AbsReal(RandomWalk(prev, vol, u) / prev - 1.0) <= vol
  {
    var change := (u * 2.0 - 1.0) * vol;
    var next := prev * (1.0 + change);
    ProductNonNegative(u * 2.0, vol);
    ProductNonNegative((1.0 - u) * 2.0, vol);
    assert -vol <= change <= vol;
    QuotientOfProduct(prev, 1.0 + change);
    ProductNonNegative(prev, change + vol);
    assert prev * (1.0 - vol) <= next;
  }

  lemma ProductNonNegative(a: real, b: real)
    requires a >= 0.0 && b >= 0.0
    ensures a * b >= 0.0
  {
  }

  lemma QuotientOfProduct(a: real, b: real)
    requires a != 0.0
    ensures a * b / a == b
  {
  }

  // ---------------------------------------------------------------- tickers

  type Prices = map<CoinId, real>

  /** The last synthetic prices; `None` before the first refresh. */
  type MockState = Option<Prices>

  /** Every coin has a positive price. */
  predicate Seeded(m: Prices)
  {
    forall id: CoinId :: id in m && m[id] > 0.0
  }

  /** The state is unset, or seeded: the only writer seeds it from the base
      prices and keeps every key positive. */
  predicate ValidState(s: MockState)
  {
    s.None? || Seeded(s.value)
  }

  /** The prices a refresh walks from: the state, or the base prices on first use. */
  function Previous(s: MockState): (m: Prices)
    requires ValidState(s)
    ensures Seeded(m)
  {
    if s.None? then
      var base := map id | id in Ids :: BasePrice(id);
      assert forall id: CoinId :: id in base by {
        forall id: CoinId ensures id in base {
          assert Ids[Position(id)] == id;
        }
      }
      base
    else s.value
  }

  /** The reported change of a refresh: relative to the previous price, in percent. */
  function PercentChange(prev: real, curr: real): (c: real)
    requires prev != 0.0
    ensures c == 0.0 <==> curr == prev
    ensures prev > 0.0 ==> (c > 0.0 <==> curr > prev)
  {
    var q := (curr - prev) / prev;
    assert q * prev == curr - prev;
    q * 100.0
  }

  datatype Refresh = Refresh(tickers: seq<Ticker>, state: MockState)

  /** Every coin of `prev` takes one walk step, coin `Ids[k]` with draw `us[k]`. */
  function WalkAll(prev: Prices, us: seq<real>): (m: Prices)
    requires Seeded(prev)
    requires |us| >= |Ids|
    ensures Seeded(m)
    ensures forall i :: 0 <= i < |Ids| ==> m[Ids[i]] == RandomWalk(prev[Ids[i]], Volatility(Ids[i]), us[i])
  {
    map id | id in prev :: RandomWalk(prev[id], Volatility(id), us[Position(id)])
  }

  /** One offline price refresh: walks every coin once (draw `us[k]` for the
      k-th coin of `Ids`), reports the new prices with their relative change
      and makes the new prices the state. */
  function MockTickers(state: MockState, us: seq<real>): (r: Refresh)
    requires ValidState(state)
    requires |us| >= |Ids|
    ensures r.state.Some? && Seeded(r.state.value)
    ensures InCoinOrder(r.tickers)
    ensures forall i :: 0 <= i < |Ids| ==>
      r.state.value[Ids[i]] == RandomWalk(Previous(state)[Ids[i]], Volatility(Ids[i]), us[i])
    ensures forall i :: 0 <= i < |Ids| ==>
      r.tickers[i].priceUsd == r.state.value[Ids[i]]
      && r.tickers[i].change24hPercent == PercentChange(Previous(state)[Ids[i]], r.tickers[i].priceUsd)
  {
    var prev := Previous(state);
    var updated := WalkAll(prev, us);
    var tickers := seq(|Ids|, i requires 0 <= i < |Ids| =>
      TickerFor(Ids[i], updated[Ids[i]], PercentChange(prev[Ids[i]], updated[Ids[i]])));
    Refresh(tickers, Some(updated))
  }

  /** The first refresh walks from the base prices. */
  lemma FirstRefreshSeedsFromBase(us: seq<real>)
    requires |us| >= |Ids|
    ensures forall i :: 0 <= i < |Ids| ==>
      MockTickers(None, us).tickers[i].priceUsd == RandomWalk(BasePrice(Ids[i]), Volatility(Ids[i]), us[i])
  {
    var r := MockTickers(None, us);
    forall i | 0 <= i < |Ids|
      ensures r.tickers[i].priceUsd == RandomWalk(BasePrice(Ids[i]), Volatility(Ids[i]), us[i])
    {
      assert Previous(None)[Ids[i]] == BasePrice(Ids[i]);
    }
  }

  /** The reported change is the exact relative move: applying it to the
      previous price gives back the new price, and it stays within the coin's
      volatility (in percent) unless the floor clamped the price. */
  lemma RefreshChangeReconstructsPrice(state: MockState, us: seq<real>, i: nat)
    requires ValidState(state) && |us| >= |Ids| && UnitDraws(us)
    requires i < |Ids|
    ensures var t := MockTickers(state, us).tickers[i];
      ChangeFits(Previous(state)[Ids[i]], t.priceUsd, t.change24hPercent, Volatility(Ids[i]))
  {
    var prev := Previous(state)[Ids[i]];
    assert IsDraw(us[i]);
    StepChange(prev, Volatility(Ids[i]), us[i]);
  }

  /** `change` percent applied to `prev` gives `price`, and stays within
      `vol` (as a percentage) unless `price` is the floor. */
  predicate ChangeFits(prev: real, price: real, change: real, vol: real)
  {
    price == prev * (1.0 + change / 100.0)
    && (price == Floor || AbsReal(change) <= 100.0 * vol)
  }

  /** The percent change of one walk step, applied to the previous price,
      gives back the stepped price, and is bounded by the volatility unless
      the floor clamped the step. */
  lemma StepChange(prev: real, vol: real, u: real)
    requires prev > 0.0 && vol >= 0.0 && IsDraw(u)
    ensures ChangeFits(prev, RandomWalk(prev, vol, u), PercentChange(prev, RandomWalk(prev, vol, u)), vol)
  {
    var curr := RandomWalk(prev, vol, u);
    RandomWalkBounds(prev, vol, u);
    PercentChangeInverse(prev, curr);
    PercentChangeScale(prev, curr);
  }

  lemma PercentChangeInverse(prev: real, curr: real)
    requires prev != 0.0
    ensures curr == prev * (1.0 + PercentChange(prev, curr) / 100.0)
  {
    var q := (curr - prev) / prev;
    assert PercentChange(prev, curr) / 100.0 == q;
    assert prev * q == curr - prev;
    assert prev * (1.0 + q) == prev + prev * q;
  }

  lemma PercentChangeScale(prev: real, curr: real)
    requires prev != 0.0
    ensures AbsReal(PercentChange(prev, curr)) == 100.0 * AbsReal(curr / prev - 1.0)
  {
    var q := (curr - prev) / prev;
    QuotientShift(curr, prev);
    assert PercentChange(prev, curr) == q * 100.0;
  }

  lemma QuotientShift(a: real, b: real)
    requires b != 0.0
    ensures a / b - 1.0 == (a - b) / b
  {
    assert (a - b) / b == a / b - b / b;
  }

  /** The state a refresh leaves behind is what the next refresh walks from:
      its previous prices are exactly the prices just reported. */
  lemma RefreshStateIsReportedPrices(state: MockState, us: seq<real>)
    requires ValidState(state) && |us| >= |Ids|
    ensures ValidState(MockTickers(state, us).state)
    ensures forall i :: 0 <= i < |Ids| ==>
      Previous(MockTickers(state, us).state)[Ids[i]] == MockTickers(state, us).tickers[i].priceUsd
  {
  }

  // ---------------------------------------------------------------- history

  /** `n` timestamps 15 minutes apart, the last one `now`. */
  function Timeline(now: int, n: nat): (ts: seq<int>)
    ensures |ts| == n
    ensures n > 0 ==> ts[n - 1] == now
    ensures forall i :: 0 <= i < n ==> ts[i] <= now
  {
    seq(n, i requires 0 <= i < n => now - (n - 1 - i) * StepMs)
  }

  /** Consecutive synthetic labels are exactly one 15-minute step apart. */
  lemma TimelineSpacing(now: int, n: nat)
    ensures var ts := Timeline(now, n);
      forall i :: 0 < i < n ==> ts[i] == ts[i - 1] + StepMs
  {
  }

  /** The prices of a walk from `start`, one step per draw. */
  function WalkPrices(start: real, vol: real, us: seq<real>): (ps: seq<real>)
    ensures |ps| == |us|
    ensures forall i :: 0 <= i < |ps| ==> ps[i] >= Floor
    decreases |us|
  {
    if |us| == 0 then []
    else
      var p := RandomWalk(start, vol, us[0]);
      [p] + WalkPrices(p, vol, us[1..])
  }

  /** The price the walk has reached: the last price, or `start` before any step. */
  function LastOr(start: real, ps: seq<real>): real
  {
    if |ps| == 0 then start else ps[|ps| - 1]
  }

  /** Each price is one walk step from its predecessor (the first from `start`). */
  lemma {:induction false} WalkPricesSteps(start: real, vol: real, us: seq<real>)
    ensures var ps := WalkPrices(start, vol, us);
      && (|us| > 0 ==> ps[0] == RandomWalk(start, vol, us[0]))
      && forall i :: 0 < i < |us| ==> ps[i] == RandomWalk(ps[i - 1], vol, us[i])
    decreases |us|
  {
    if |us| > 0 {
      var ps := WalkPrices(start, vol, us);
      var p := RandomWalk(start, vol, us[0]);
      WalkPricesSteps(p, vol, us[1..]);
      assert ps == [p] + WalkPrices(p, vol, us[1..]);
      forall i | 1 <= i < |us|
        ensures ps[i] == RandomWalk(ps[i - 1], vol, us[i])
      {
        assert us[i] == us[1..][i - 1];
      }
    }
  }

  /** The walk over the first `n` draws steps from `start` with draw `us[0]`,
      then from each price with the next draw. */
  lemma WalkPricesPrefixSteps(start: real, vol: real, us: seq<real>, n: nat)
    requires n <= |us|
    ensures var ps := WalkPrices(start, vol, us[..n]);
      && (n > 0 ==> ps[0] == RandomWalk(start, vol, us[0]))
      && forall i :: 0 < i < n ==> ps[i] == RandomWalk(ps[i - 1], vol, us[i])
  {
    var ps := WalkPrices(start, vol, us[..n]);
    WalkPricesSteps(start, vol, us[..n]);
    if n > 0 {
      assert ps[0] == RandomWalk(start, vol, us[..n][0]);
    }
    forall i | 0 < i < n
      ensures ps[i] == RandomWalk(ps[i - 1], vol, us[i])
    {
      assert us[..n][i] == us[i];
      assert ps[i] == RandomWalk(ps[i - 1], vol, us[..n][i]);
    }
  }

  /** Extending the draws by one extends the walk by one step from where it stood. */
  lemma {:induction false} WalkPricesSnoc(start: real, vol: real, us: seq<real>, u: real)
    ensures WalkPrices(start, vol, us + [u])
      == WalkPrices(start, vol, us) + [RandomWalk(LastOr(start, WalkPrices(start, vol, us)), vol, u)]
    decreases |us|
  {
    if |us| > 0 {
      var p := RandomWalk(start, vol, us[0]);
      assert (us + [u])[1..] == us[1..] + [u];
      WalkPricesSnoc(p, vol, us[1..], u);
      var tail := WalkPrices(p, vol, us[1..]);
      assert LastOr(start, WalkPrices(start, vol, us)) == LastOr(p, tail);
    }
  }

  /** From a positive start, every step of a synthetic series moves by at most
      the volatility bound unless the floor clamps it. */
  lemma WalkPricesBounded(start: real, vol: real, us: seq<real>)
    requires start > 0.0 && vol >= 0.0 && UnitDraws(us)
    ensures var ps := WalkPrices(start, vol, us);
      forall i :: 0 < i < |ps| ==> ps[i] == Floor || AbsReal(ps[i] / ps[i - 1] - 1.0) <= vol
  {
    var ps := WalkPrices(start, vol, us);
    WalkPricesSteps(start, vol, us);
    forall i | 0 < i < |ps|
      ensures ps[i] == Floor || AbsReal(ps[i] / ps[i - 1] - 1.0) <= vol
    {
      assert IsDraw(us[i]);
      RandomWalkBounds(ps[i - 1], vol, us[i]);
    }
  }

  /** The price the synthetic history starts from: the state's bitcoin price,
      or its base price before the first refresh. The state is only read. */
  function StartPrice(state: MockState): real
  {
    if state.Some? && Bitcoin in state.value then state.value[Bitcoin] else BasePrice(Bitcoin)
  }

  /** Under the state invariant the start price is positive, and once the
      state is set the base-price fallback is never taken. */
  lemma StartPriceFollowsState(state: MockState)
    requires ValidState(state)
    ensures StartPrice(state) > 0.0
    ensures state.Some? ==> StartPrice(state) == state.value[Bitcoin]
  {
  }

  /** A synthetic bitcoin series of `points` prices at 15-minute steps ending at `now`. */
  function MockHistory(state: MockState, now: int, points: nat, us: seq<real>): (s: Series)
    requires |us| >= points
    ensures Aligned(s) && |s.prices| == points
    ensures s.labels == Timeline(now, points)
    ensures forall i :: 0 <= i < points ==> s.prices[i] >= Floor
    // the prices walk with volatility 0.004 from 98% of the start price, one draw per point
    ensures points > 0 ==> s.prices[0] == RandomWalk(StartPrice(state) * Discount, HistoryVolatility, us[0])
    ensures forall i :: 0 < i < points ==> s.prices[i] == RandomWalk(s.prices[i - 1], HistoryVolatility, us[i])
  {
    var start := StartPrice(state) * Discount;
    var ps := WalkPrices(start, HistoryVolatility, us[..points]);
    WalkPricesPrefixSteps(start, HistoryVolatility, us, points);
    Series(Timeline(now, points), ps)
  }

  /** The synthetic six-hour series. */
  function MockBtcLast6h(state: MockState, now: int, us: seq<real>): (s: Series)
    requires |us| >= Last6hPoints
    ensures Aligned(s) && |s.prices| == 24
  {
    MockHistory(state, now, Last6hPoints, us)
  }

  /** One iteration of the generator's loop: the prefixes of the timeline and
      of the walk each grow by the point the iteration emits. */
  lemma MockSeriesStep(start: real, now: int, points: nat, us: seq<real>, k: nat)
    requires k < points <= |us|
    ensures Timeline(now, points)[..k + 1] == Timeline(now, points)[..k] + [now - (points - 1 - k) * StepMs]
    ensures WalkPrices(start, HistoryVolatility, us[..k + 1])
      == WalkPrices(start, HistoryVolatility, us[..k])
         + [RandomWalk(LastOr(start, WalkPrices(start, HistoryVolatility, us[..k])), HistoryVolatility, us[k])]
  {
    assert us[..k + 1] == us[..k] + [us[k]];
    WalkPricesSnoc(start, HistoryVolatility, us[..k], us[k]);
  }

  /** The generator's loop, counting `i` down from `points - 1` to 0 and
      emitting the point `i` steps before `now`; it builds `MockHistory`. */
  method MockSeries(state: MockState, now: int, points: nat, us: seq<real>) returns (s: Series)
    requires |us| >= points
    ensures s == MockHistory(state, now, points, us)
  {
    var start := StartPrice(state) * Discount;
    ghost var line := Timeline(now, points);
    var price := start;
    var labels: seq<int> := [];
    var prices: seq<real> := [];
    var i: int := points - 1;
    while i >= 0
      invariant -1 <= i < points
      invariant labels == line[..points - 1 - i]
      invariant prices == WalkPrices(start, HistoryVolatility, us[..points - 1 - i])
      invariant price == LastOr(start, prices)
    {
      MockSeriesStep(start, now, points, us, points - 1 - i);
      price := RandomWalk(price, HistoryVolatility, us[points - 1 - i]);
      labels := labels + [now - i * StepMs];
      prices := prices + [price];
      i := i - 1;
    }
    assert labels == line[..points];
    s := Series(labels, prices);
  }
}
